=== FILE: README.md ===
# WebVM core, modelled in Dafny

WebVM starts throw-away Docker containers ("VMs") and lets a browser reach
each container's VNC server through a WebSocket. This project models the
parts of it that decide something:

- the VM controller (`backend/controllers/vm.go`): the `vm-<id>` container
  naming, the start handler's running check and cleanup, the stop handler,
  the stream handler's single address lookup, its 20-second wait for VNC,
  the two copy loops of the WebSocket/TCP relay, and the teardown once the
  relay ends;
- the JSON reply helpers (`backend/utils/response.go`): success and error
  envelopes, default error texts, validation errors, and the paginated reply
  with its page count, computed in Go's int64 arithmetic;
- the status badge of the web interface
  (`interface/components/ui/statusBadge.tsx`): status normalisation, table
  lookup with the `inactive` fallback, label choice and class order.

Docker is abstracted as a set of existing container names. Each handler is a
pure function of the request's id, that set, and an environment record that
holds everything the runtime, network and clock report (command outputs and
errors, whether `docker rm -f` took effect, dial outcomes and durations).
Each handler returns the HTTP status and reply, the `docker` commands it
issued in order, and the container set afterwards. Each relay direction is a
function of the sequence of read results it sees. A direction whose input
runs out without an error has not ended: its goroutine is still blocked on a
read. The readiness wait runs on an abstract millisecond clock.

Files: `wrappers.dfy` (Option), `seqs.dfy` (a sequence lemma),
`gostrings.dfy` (`strings.TrimSpace`), `docker.dfy` (runtime state and
commands), `relay.dfy`, `readiness.dfy`, `vm.dfy`, `response.dfy`,
`statusbadge.dfy`.

Three behaviours of the code are worth stating plainly:
- The stream handler looks the container's address up once and answers 502
  on an error or an empty IP; it does not retry.
- No container port is published, although the comment on `Startvm` says
  VNC is exposed on a random host port. The stream handler dials the
  container's bridge IP on port 5901.
- Only a relay that has ended triggers `docker rm -f` in the stream handler.
  A readiness timeout or a failed upgrade leaves the container in place, and
  so does a failed `docker run` that created it: the start handler answers
  500 and never cleans it up. A start whose container is not running but
  whose `docker rm -f` did not take effect also leaves it: the handler
  ignores the remove's error and answers 200 with `running` false.

## Model

| member | source | states |
|---|---|---|
| VmController.ContainerNameInjective | backend/controllers/vm.go:31 | Distinct VM ids map to distinct `vm-<id>` container names, and the id can be read back from the name. Every handler can therefore recompute the container without an id table. |
| VmController.ContainerName | backend/controllers/vm.go:31 | The container of VM `id` is named `vm-` followed by the id, unchanged. |
| VmController.IsRunning | backend/controllers/vm.go:53-55 | A container counts as running exactly when the inspect command succeeded and printed `true` with nothing but white space around it. |
| VmController.Start | backend/controllers/vm.go:29-68 | A failed `docker run` gives 500 with the error and output. Nothing is inspected or removed, so a container the failed run created stays. A successful run gives 200 with the trimmed run output as container id. `running` holds exactly when inspect succeeded and printed `true`. A running container is kept and no logs are sent. A container that is not running has its logs returned and is force-removed; it is gone exactly when that remove took effect, since the handler ignores the remove's error. No other container changes. |
| VmController.StartLeavesOnlyRunning | backend/controllers/vm.go:53-67 | After a 200 start whose cleanup took effect, the VM's container exists exactly when the reply says it is running. |
| VmController.FailedRunOrphan | backend/controllers/vm.go:41-46 | A `docker run` that fails after creating the container leaves it behind: the reply is 500, no remove is issued, and `vm-<id>` still exists. |
| VmController.CleanupUnavailableOrphan | backend/controllers/vm.go:53-67 | A start whose inspect fails and whose `docker rm -f` did not take effect still answers 200 with `running` false, and `vm-<id>` stays, because the remove's error is ignored. |
| VmController.Stop | backend/controllers/vm.go:71-83 | An empty id gives 400 "missing vm id" with no commands and no change. Any other id gives `docker stop` then `docker rm -f` on `vm-<id>`, then 200 "vm stopped". Afterwards the container exists exactly when it existed before and the remove did not take effect. No other container changes. |
| VmController.StopIdempotent | backend/controllers/vm.go:77-82 | When the first remove took effect, stopping a VM twice gives the same reply and the same container set as stopping it once. |
| VmController.StopIgnoresRuntime | backend/controllers/vm.go:79-82 | The reply and commands of a stop depend on the id only, never on what Docker reported or which containers exist. |
| VmController.EarlyExit | backend/controllers/vm.go:102-134 | The handler returns early exactly when a check fails, and each check has its own reply, in the handler's order. A failed lookup gives 502 "failed to resolve vm IP: <err>" with the inspect output. A blank IP gives 502 "vm IP not available". A readiness timeout gives 502 "VNC not ready: <last dial error>". A failed upgrade, which happens only after VNC was reached, leaves the reply to the upgrader. |
| VmController.Stream | backend/controllers/vm.go:93-180 | An empty id gives 400 with no commands. Otherwise the container address is looked up exactly once. `docker rm -f` follows only once the relay has ended. Without that, the container set is unchanged. The relay runs exactly when every check passed, and it carries what the two copy loops produce. Otherwise the reply is the first early exit the handler meets. |
| VmController.StreamTeardownOnce | backend/controllers/vm.go:172-179 | A stream request with an id issues exactly one address lookup. It issues exactly one forced remove if the relay ended, even when both directions failed, and none otherwise. A remove that took effect leaves the container absent. |
| VmController.NotReadyKeepsContainer | backend/controllers/vm.go:114-126 | A readiness timeout answers 502, issues only the address lookup and leaves the container for the caller to stop. |
| Readiness.Await | backend/controllers/vm.go:115-128 | The loop never goes back in time or in attempts. It reports "not ready" only with a clock reading past the deadline. |
| Readiness.WaitForVnc | backend/controllers/vm.go:114-128 | The handler's wait, with its deadline 20 s after it starts, ends on a successful dial or with the last dial's error once the clock is past the deadline. Every attempt before the last one failed. |
| Readiness.AwaitOutcome | backend/controllers/vm.go:115-128 | The wait ends on the first successful dial to `<ip>:5901`. It reports "not ready" only after a failed dial whose clock reading is past the deadline. Every earlier attempt failed with its clock reading within the deadline. |
| Readiness.AwaitAttemptBound | backend/controllers/vm.go:116-127 | Every failed attempt within the deadline is followed by a 500 ms sleep. So the attempts after the first number at most (time left + 500 ms) / 500 ms, which is 41 for a 20 s window. |
| Readiness.AwaitTimeBound | backend/controllers/vm.go:116-127 | When no dial outlasts its 1 s timeout, the wait is over by the deadline plus one sleep plus one dial timeout. |
| Readiness.WaitForVncBounded | backend/controllers/vm.go:116-127 | The handler's wait makes at most 42 attempts. With dials bounded by their timeout, it ends within 21.5 s of its start. |
| Readiness.FirstDialConnects | backend/controllers/vm.go:118-121 | A VNC server that accepts the first dial is used immediately, with no sleep. |
| Relay.WsToTcp | backend/controllers/vm.go:140-153 | The browser-to-VNC loop ends exactly when some read fails or some binary payload's TCP write fails. What it writes is always a prefix of the concatenated binary payloads, and all of them when it has not ended. |
| Relay.WsToTcpUpToFirstStop | backend/controllers/vm.go:142-151 | TCP receives exactly the binary payloads before the first failure, in order, followed by the part of the failing write that got through. |
| Relay.WsToTcpAppend | backend/controllers/vm.go:142-152 | After a stretch of messages without failure, the loop continues on the rest as if fresh. Output is the in-order concatenation. |
| Relay.TextMessagesDropped | backend/controllers/vm.go:147-151 | A client that sends only text messages puts no byte on TCP, and the loop keeps running. |
| Relay.TcpToWs | backend/controllers/vm.go:156-170 | The VNC-to-browser loop ends exactly when a read fails or sending a non-empty chunk fails. Every message sent is binary with 1 to 8192 bytes. The messages are a prefix of one message per non-empty read, and all of them when the loop has not ended. |
| Relay.TcpToWsUpToFirstStop | backend/controllers/vm.go:159-169 | The loop sends one binary message per non-empty read before the first failure, and nothing else. |
| Relay.TcpToWsByteExact | backend/controllers/vm.go:158-168 | The browser receives exactly the bytes read from TCP before the first failure, in order. |
| Relay.EmptyReadSendsNothing | backend/controllers/vm.go:164-168 | A zero-length read sends nothing and does not stop the loop. |
| Relay.TcpToWsAppend | backend/controllers/vm.go:159-169 | After a stretch of reads without failure, the loop continues on the rest as if fresh. |
| Relay.ThreeBytesOneMessage | backend/controllers/vm.go:158-166 | Reading the bytes 1, 2, 3 in one chunk yields exactly one binary message with exactly those bytes. |
| GoStrings.TrimSpaceSplits | backend/controllers/vm.go:47 | Every command output is white space, then its trimmed form, then white space. |
| GoStrings.TrimSpace | backend/controllers/vm.go:47 | The trimmed output begins and ends with a non-space character, or is empty, and is no longer than the output. |
| GoStrings.TrimSpaceYields | backend/controllers/vm.go:55 | For a trimmed text `x`, trimming gives `x` exactly on `x` padded with white space. |
| GoStrings.TrimSpaceOfPadded | backend/controllers/vm.go:55 | Trimming removes exactly the surrounding white space: any trimmed text padded with white space is recovered. |
| Response.EnvelopesDistinct | backend/utils/response.go:25-40 | A success envelope never equals an error envelope, whatever their status and texts. |
| Response.SuccessResponse | backend/utils/response.go:25-32 | The reply has the given status and reads back as success with its message and data. No error is set. |
| Response.ErrorResponse | backend/utils/response.go:34-40 | The reply has the given status and reads back as failure with the given text. No message or data is set. |
| Response.UnauthorizedResponse | backend/utils/response.go:52-57 | 401 with a non-empty error text and no message or data. A non-empty caller message is kept unchanged. |
| Response.NotFoundResponse | backend/utils/response.go:59-64 | 404 with a non-empty error text and no message or data. A non-empty caller message is kept unchanged. |
| Response.DefaultMessages | backend/utils/response.go:52-64 | An empty message becomes "Unauthorized" or "Resource not found". |
| Response.ServerErrorResponse | backend/utils/response.go:66-68 | Always 500 "Internal server error", with no message or data, so nothing of the error reaches the client. |
| Response.ServerErrorIgnoresError | backend/utils/response.go:66-68 | The error's text never reaches the client: any two errors give the same reply. |
| Response.ValidationErrorResponse | backend/utils/response.go:42-50 | Always 400 and an error reply with no message or data. For `ValidationErrors`, the text is "Validation failed: " followed by the first error's tag. For any other error, including nil, the text is "Invalid request data". An empty `ValidationErrors` slice panics on `[0]`. |
| Response.ValidationNamesFirstTag | backend/utils/response.go:44-45 | Two validation failures get the same reply exactly when their first tags agree. |
| Response.Quo | backend/utils/response.go:71 | Go's `/` truncates toward zero: the remainder has the sign of the dividend and is smaller than the divisor in magnitude. |
| Response.Pages | backend/utils/response.go:71 | A zero limit panics. For `total >= 0`, `limit > 0` and no int64 overflow, `pages` is the ceiling of total/limit: `pages*limit >= total`, `(pages-1)*limit < total` when `total > 0`, and `pages = 0` when `total = 0`. |
| Response.PagesTruncatesTowardZero | backend/utils/response.go:71 | For total -4 and limit 2 the page count is -1: truncation, not Euclidean division. |
| Response.PagesOverflow | backend/utils/response.go:71 | A total of the int64 maximum with limit 2 overflows the numerator and yields a negative page count. |
| Response.WrapItems | backend/utils/response.go:73-78 | A `[]interface{}` is used as the item list unchanged. Anything else, nil and typed slices included, becomes the single item. |
| Response.WrapItemsStable | backend/utils/response.go:73-78 | The item list handed out, passed back in as a `[]interface{}`, comes out unchanged. |
| Response.PaginatedResponse | backend/utils/response.go:70-89 | A zero limit panics. Otherwise the reply is 200, success, "Retrieved successfully", with no error. It carries the wrapped items, passes total, page and limit through unchanged, and has the ceiling page count whenever no overflow occurs, 0 for an empty list included. |
| StatusBadge.ToLower | interface/components/ui/statusBadge.tsx:51 | Lower-casing keeps the length and lower-cases every ASCII letter in place; every other character is kept. |
| StatusBadge.ReplaceFirstSpace | interface/components/ui/statusBadge.tsx:51 | Only the first space becomes `-`. Every other character, later spaces included, is kept. |
| StatusBadge.Normalize | interface/components/ui/statusBadge.tsx:51 | The key has the status's length. It is the status ASCII-lower-cased, with a dash in place of the status's first space. |
| StatusBadge.ConfigFor | interface/components/ui/statusBadge.tsx:52 | The normalised status selects its table entry when it is a key, and the `inactive` entry otherwise. The result is always a table entry. |
| StatusBadge.Render | interface/components/ui/statusBadge.tsx:50-65 | `cn` receives the base classes, the entry's background, the entry's text colour and the caller's `className`, in that order. The shown text is the non-empty custom label, else the entry's label. |
| StatusBadge.EmptyCustomLabelIgnored | interface/components/ui/statusBadge.tsx:63 | An empty custom label renders exactly like no custom label. |
| StatusBadge.KnownKeysSelectThemselves | interface/components/ui/statusBadge.tsx:11-42 | Each of the six keys normalises to itself and selects its own colours and label. |
| StatusBadge.ConfigIgnoresCase | interface/components/ui/statusBadge.tsx:51-52 | A status and its lower-case form select the same entry. |
| StatusBadge.DisplayNamesSelectEntries | interface/components/ui/statusBadge.tsx:51-52 | "In Progress" normalises to "in-progress" and selects that entry. |
| StatusBadge.OnlyFirstSpaceReplaced | interface/components/ui/statusBadge.tsx:51 | "in progress now" normalises to "in-progress now". |
| StatusBadge.SpaceLeftFallsBack | interface/components/ui/statusBadge.tsx:51-52 | A status that still contains a space after normalising is no key, so it falls back to `inactive`. |
| StatusBadge.InactiveExactlyWhenUnknown | interface/components/ui/statusBadge.tsx:17-21 | The entry's label is "Inactive" exactly when the normalised status is unknown or is `inactive` itself. |
| StatusBadge.NonAsciiFallsBack | interface/components/ui/statusBadge.tsx:51-52 | A status holding a non-ASCII character selects the `inactive` entry, since that character survives normalisation and every key is ASCII. |

## Left out

- Docker itself: `exec.Command`, bash and the `docker inspect` templates are
  foreign processes. Their outputs and errors are inputs of the model.
  Nothing relates an inspect's output to the container set, so the
  properties hold whatever those commands report, as long as each command
  line runs only the one `docker` command it names (see the next line).
- VmController.Stream: assumes the VM id holds no shell metacharacters.
  The stream route is public, and the handler puts the id unquoted into a
  `bash -lc` command line (backend/controllers/vm.go:99-102). An id such as
  `x;docker rm -f vm-<other>` makes the address lookup also remove another
  VM's container. The model's single `InspectAddress` command, its unchanged
  container set on an early exit, and `StreamTeardownOnce` and
  `NotReadyKeepsContainer` describe the handler only for ids without such
  characters. The start handler's `bash -lc` (vm.go:53) only sees a UUID.
- The 300 ms settle sleep in start and the UUID generation. The VM id is a
  parameter, and the sleep changes no decision.
- Goroutines and the `done` channel. Each relay direction is modelled
  sequentially on its own input. The relay counts as ended when either
  direction has returned. When one direction ends, the handler closes both
  connections, and the other direction then sees a read error; in the model
  that error is simply part of that direction's input.
- The deferred `Close` calls on the TCP connection and the WebSocket. Closing
  has no modelled effect.
- Logging, including the log line for a failed teardown. A teardown that did
  not take effect is the `Unavailable` outcome, and it changes nothing.
- Real time: `time.Now`, `time.Sleep` and dial timeouts are replaced by an
  integer clock. Each attempt's duration is an input, and the sleep adds
  exactly 500 ms. Oversleeping is folded into the next attempt's duration.
- The `vmUpgrader` configuration, the gin context and JSON encoding. The
  `omitempty` fields are modelled as empty strings or `Nil`. The status of a
  failed upgrade is written by the upgrader and is not modelled.
- A container's running state. The container set records existence only,
  so `docker stop` changes nothing in it; only removal does.
- The `Info` handler only passes `docker inspect` JSON through.
- `backend/main.go`, `backend/routes/routes.go` and the Next.js pages, viewer,
  layout, icon and config. They hold configuration, routing and markup.
- The `cn` helper. It lives in `@/lib/utils`, which is not part of this
  model. The badge is modelled up to the arguments passed to it.
- Lookups on `statusConfigs` that hit JavaScript prototype keys such as
  "constructor". The table is a finite map.
- StatusBadge.ToLower: lower-cases ASCII letters only, where JavaScript's
  `toLowerCase` maps all of Unicode. The key `Normalize` returns can
  therefore differ from the browser's for a status with non-ASCII letters.
  The selected entry never differs: the only non-ASCII character that
  lower-cases to ASCII is the Kelvin sign, giving `k`, which no key
  contains. Every other non-ASCII character lower-cases to text that still
  holds a non-ASCII character, and no key holds one either. Both versions
  therefore fall back to `inactive`; `NonAsciiFallsBack` states the model's
  half.
- StatusBadge.Normalize: inherits the ASCII-only lower-casing of
  `StatusBadge.ToLower`, so the key can differ from the browser's for a
  status with non-ASCII letters ("Äctive" stays "Äctive", where the browser
  gives "äctive"). The selected entry cannot differ: `NonAsciiFallsBack`
  shows such a status selects `inactive` here, and no key holds a
  non-ASCII character there either.
- Response.Pages: the ceiling property is stated only when
  `total + limit - 1` fits in int64. The source makes no promise beyond that,
  and `PagesOverflow` shows what happens past it.
- Go's `int` is taken to be 64 bits wide.
- Command output is modelled as decoded text, while Go trims bytes. Invalid
  UTF-8, which `TrimSpace` reads as the non-space U+FFFD, cannot be
  represented.

=== FILE: docker.dfy ===
/**
 * The container runtime as the controllers see it: a set of existing container
 * names, the commands issued against it, and what each command reported.
 * Command outcomes are inputs, chosen by the environment, not computed here.
 */
module Docker {
  import opened Wrappers

  /** Names of the containers that currently exist. */
  type Containers = set<string>

  /** One `docker` invocation, by the container it addresses. */
  datatype Command =
    | Run(name: string)             // start a detached container on the platform network
    | InspectRunning(name: string)  // read the container's running flag
    | Logs(name: string)            // read the container's output
    | Stop(name: string)            // stop the container
    | ForceRemove(name: string)     // remove the container, stopping it first if needed
    | InspectAddress(name: string)  // read the container's IP on its networks

  /** What `CombinedOutput` returns: the combined output text and the error, if any. */
  datatype Output = Output(text: string, err: Option<string>) {
    predicate Failed() { err.Some? }
  }

  /** Outcome of `docker run -d`; a failed run may still have created the container. */
  datatype RunOutcome =
    | RunSucceeded(output: string)
    | RunFailed(error: string, output: string, leftCreated: bool)

  /** Whether the runtime carried out a command, or was unreachable and changed nothing. */
  datatype Effect = Applied | Unavailable

  /** The containers after `docker run` named `name` reported `run`. */
  function AfterRun(c: Containers, name: string, run: RunOutcome): (c': Containers)
    ensures run.RunSucceeded? ==> name in c'
    ensures run.RunFailed? ==> (name in c' <==> name in c || run.leftCreated)
    ensures forall n :: n != name ==> (n in c' <==> n in c)
  {
    match run
    case RunSucceeded(_) => c + {name}
    case RunFailed(_, _, created) => if created then c + {name} else c
  }

  /** The containers after `docker rm -f name`. Removing an absent container changes nothing. */
  function AfterForceRemove(c: Containers, name: string, e: Effect): (c': Containers)
    ensures e == Applied ==> name !in c'
    ensures name in c' <==> name in c && e.Unavailable?
    ensures forall n :: n != name ==> (n in c' <==> n in c)
    ensures e == Unavailable ==> c' == c
  {
    if e == Applied then c - {name} else c
  }

  /** How many times `cmd` occurs in a command trace. */
  function Count(trace: seq<Command>, cmd: Command): nat
  {
    if |trace| == 0 then 0
    else (if trace[0] == cmd then 1 else 0) + Count(trace[1..], cmd)
  }

  /** Counting distributes over concatenation of traces. */
  lemma {:induction false} CountAppend(a: seq<Command>, b: seq<Command>, cmd: Command)
    ensures Count(a + b, cmd) == Count(a, cmd) + Count(b, cmd)
  {
    if |a| == 0 {
      assert a + b == b;
    } else {
      assert (a + b)[1..] == a[1..] + b;
      CountAppend(a[1..], b, cmd);
    }
  }

  lemma CountSingle(x: Command, cmd: Command)
    ensures Count([x], cmd) == if x == cmd then 1 else 0
  {
    assert [x][1..] == [];
  }
}

=== FILE: gostrings.dfy ===
/**
 * The parts of Go's `strings` and `unicode` packages the controllers rely on
 * to read `docker` output: `unicode.IsSpace` and `strings.TrimSpace`.
 */
module GoStrings {
  import Seqs

  /** `unicode.IsSpace`: the Latin-1 spaces plus the Unicode White_Space code points above U+00FF. */
  predicate IsSpace(c: char) {
    || c == '\t' || c == '\n' || c == '\U{000B}' || c == '\U{000C}' || c == '\r' || c == ' '
    || c == '\U{0085}' || c == '\U{00A0}'
    || c == '\U{1680}' || ('\U{2000}' <= c <= '\U{200A}')
    || c == '\U{2028}' || c == '\U{2029}' || c == '\U{202F}' || c == '\U{205F}' || c == '\U{3000}'
  }

  predicate AllSpace(s: string) {
    forall i :: 0 <= i < |s| ==> IsSpace(s[i])
  }

  /** A string with no white space at either end: the only shape `TrimSpace` returns. */
  predicate Trimmed(s: string) {
    |s| == 0 || (!IsSpace(s[0]) && !IsSpace(s[|s| - 1]))
  }

  /** Drops leading white space: the result is the longest suffix that does not start with a space. */
  function TrimLeft(s: string): (r: string)
    ensures |r| <= |s| && r == s[|s| - |r|..]
    ensures AllSpace(s[..|s| - |r|])
    ensures |r| > 0 ==> !IsSpace(r[0])
  {
    if |s| > 0 && IsSpace(s[0]) then TrimLeft(s[1..]) else s
  }

  /** Drops trailing white space: the result is the longest prefix that does not end with a space. */
  function TrimRight(s: string): (r: string)
    ensures |r| <= |s| && r == s[..|r|]
    ensures AllSpace(s[|r|..])
    ensures |r| > 0 ==> !IsSpace(r[|r| - 1])
  {
    if |s| > 0 && IsSpace(s[|s| - 1]) then TrimRight(s[..|s| - 1]) else s
  }

  /** `strings.TrimSpace`. */
  function TrimSpace(s: string): (r: string)
    ensures Trimmed(r)
    ensures |r| <= |s|
  {
    TrimRight(TrimLeft(s))
  }

  /** Every string is white space, then its trimmed core, then white space. */
  lemma TrimSpaceSplits(s: string) returns (pre: string, post: string)
    ensures AllSpace(pre) && AllSpace(post)
    ensures s == pre + TrimSpace(s) + post
  {
    var l := TrimLeft(s);
    pre := LeftSplit(s);
    post := RightSplit(l);
    assert TrimSpace(s) == TrimRight(l);
    Seqs.ConcatAssoc(pre, TrimRight(l), post);
  }

  lemma LeftSplit(s: string) returns (pre: string)
    ensures AllSpace(pre) && s == pre + TrimLeft(s)
  {
    var l := TrimLeft(s);
    pre := s[..|s| - |l|];
    assert l == s[|s| - |l|..];
  }

  lemma RightSplit(s: string) returns (post: string)
    ensures AllSpace(post) && s == TrimRight(s) + post
  {
    var r := TrimRight(s);
    post := s[|r|..];
    assert r == s[..|r|];
  }

  lemma TrimLeftOfPadded(pre: string, x: string)
    requires AllSpace(pre)
    requires |x| == 0 || !IsSpace(x[0])
    ensures TrimLeft(pre + x) == x
    decreases |pre|
  {
    if |pre| > 0 {
      assert (pre + x)[1..] == pre[1..] + x;
      TrimLeftOfPadded(pre[1..], x);
    } else {
      assert pre + x == x;
    }
  }

  lemma TrimRightOfPadded(x: string, post: string)
    requires AllSpace(post)
    requires |x| == 0 || !IsSpace(x[|x| - 1])
    ensures TrimRight(x + post) == x
    decreases |post|
  {
    if |post| > 0 {
      assert (x + post)[..|x + post| - 1] == x + post[..|post| - 1];
      TrimRightOfPadded(x, post[..|post| - 1]);
    } else {
      assert x + post == x;
    }
  }

  /** Surrounding white space never reaches the result: `TrimSpace` recovers any trimmed core. */
  lemma {:induction false} TrimSpaceOfPadded(pre: string, x: string, post: string)
    requires AllSpace(pre) && AllSpace(post) && Trimmed(x)
    ensures TrimSpace(pre + x + post) == x
  {
    if |x| == 0 {
      assert pre + x + post == pre + post;
      TrimLeftOfPadded(pre + post, "");
      assert pre + post + "" == pre + post;
    } else {
      assert pre + x + post == pre + (x + post);
      TrimLeftOfPadded(pre, x + post);
      TrimRightOfPadded(x, post);
    }
  }

  /** For a trimmed `x`, `TrimSpace` yields `x` exactly on the strings that are `x` padded with white space. */
  lemma TrimSpaceYields(s: string, x: string)
    requires Trimmed(x)
    ensures TrimSpace(s) == x <==> exists pre, post :: AllSpace(pre) && AllSpace(post) && s == pre + x + post
  {
    if TrimSpace(s) == x {
      var pre, post := TrimSpaceSplits(s);
    }
    forall pre, post | AllSpace(pre) && AllSpace(post) && s == pre + x + post
      ensures TrimSpace(s) == x
    {
      TrimSpaceOfPadded(pre, x, post);
    }
  }

}

=== FILE: readiness.dfy ===
/**
 * The loop that waits for the VNC server inside a container to accept TCP
 * connections, over an abstract millisecond clock.
 *
 * Attempt k starts at clock reading `now`. Its dial takes `env.elapsed(k)`
 * milliseconds, including any scheduling delay; after a failed dial the
 * clock is read, and unless it is past the deadline the loop sleeps
 * `RetryInterval` milliseconds and tries again. The clock therefore only
 * moves forward.
 */
module Readiness {

  /** The VNC server's TCP port inside the container. */
  const VncPort: string := "5901"

  /** How long after it starts the loop keeps trying, in milliseconds. */
  const ReadyWindow: int := 20000

  /** Pause after a failed dial, in milliseconds. */
  const RetryInterval: int := 500

  /** Per-attempt dial timeout, in milliseconds. */
  const DialTimeout: int := 1000

  /** The dial target `<ip>:5901`. */
  function VncAddress(ip: string): string {
    ip + ":" + VncPort
  }

  /** Outcome of one `DialTimeout`; a connection is identified by a number. */
  datatype Dial = Connected(conn: nat) | DialFailed(err: string)

  /** What the network does: the outcome of dialling an address on attempt k, and how long that took. */
  datatype Network = Network(dial: (string, nat) -> Dial, elapsed: nat -> nat)

  /** The loop's result, with the attempt it ended on and the clock at that moment. */
  datatype Wait =
    | Ready(conn: nat, attempt: nat, clock: int)
    | NotReady(err: string, attempt: nat, clock: int)

  /** The loop from attempt `k`, which starts at clock reading `now`. */
  function Await(env: Network, ip: string, deadline: int, k: nat, now: int): (w: Wait)
    ensures k <= w.attempt && now <= w.clock
    ensures w.NotReady? ==> w.clock > deadline
    decreases if now <= deadline then deadline - now + 1 else 0
  {
    var t := now + env.elapsed(k);
    match env.dial(VncAddress(ip), k)
    case Connected(c) => Ready(c, k, t)
    case DialFailed(e) =>
      if t > deadline then NotReady(e, k, t)
      else Await(env, ip, deadline, k + 1, t + RetryInterval)
  }

  /** The readiness wait as the stream handler runs it: the deadline is 20 s after `start`. */
  function WaitForVnc(env: Network, ip: string, start: int): (w: Wait)
    ensures start <= w.clock
    ensures w.Ready? ==> env.dial(VncAddress(ip), w.attempt) == Connected(w.conn)
    ensures w.NotReady? ==> env.dial(VncAddress(ip), w.attempt) == DialFailed(w.err) && w.clock > start + ReadyWindow
    ensures forall j :: 0 <= j < w.attempt ==> env.dial(VncAddress(ip), j).DialFailed?
  {
    AwaitOutcome(env, ip, start + ReadyWindow, 0, start);
    Await(env, ip, start + ReadyWindow, 0, start)
  }

  /** The clock reading at the end of attempt `j` when attempt `k` started at `now` and all in between failed. */
  function ClockAfter(env: Network, k: nat, now: int, j: nat): int
    requires k <= j
    decreases j - k
  {
    if j == k then now + env.elapsed(k)
    else ClockAfter(env, k + 1, now + env.elapsed(k) + RetryInterval, j)
  }

  /**
   * The loop ends on its first successful dial, and reports "not ready" only
   * on a failed dial whose clock reading is past the deadline; every earlier
   * attempt failed with its clock reading within the deadline.
   */
  lemma {:induction false} AwaitOutcome(env: Network, ip: string, deadline: int, k: nat, now: int)
    ensures var w := Await(env, ip, deadline, k, now);
      && k <= w.attempt
      && w.clock == ClockAfter(env, k, now, w.attempt)
      && (w.Ready? ==> env.dial(VncAddress(ip), w.attempt) == Connected(w.conn))
      && (w.NotReady? ==> env.dial(VncAddress(ip), w.attempt) == DialFailed(w.err) && w.clock > deadline)
      && (forall j :: k <= j < w.attempt ==>
            env.dial(VncAddress(ip), j).DialFailed? && ClockAfter(env, k, now, j) <= deadline)
    decreases if now <= deadline then deadline - now + 1 else 0
  {
    var t := now + env.elapsed(k);
    var w := Await(env, ip, deadline, k, now);
    if env.dial(VncAddress(ip), k).DialFailed? && t <= deadline {
      var now' := t + RetryInterval;
      AwaitOutcome(env, ip, deadline, k + 1, now');
      forall j | k <= j < w.attempt
        ensures env.dial(VncAddress(ip), j).DialFailed? && ClockAfter(env, k, now, j) <= deadline
      {
        if j > k {
          ClockAfterStep(env, k, now, j);
        }
      }
      ClockAfterStep(env, k, now, w.attempt);
    }
  }

  lemma ClockAfterStep(env: Network, k: nat, now: int, j: nat)
    requires k < j
    ensures ClockAfter(env, k, now, j) == ClockAfter(env, k + 1, now + env.elapsed(k) + RetryInterval, j)
  {
  }

  /**
   * Every failed attempt within the deadline is followed by a sleep, so the
   * attempts after the first number at most the time left plus one
   * `RetryInterval`, divided by `RetryInterval`.
   */
  lemma {:induction false} AwaitAttemptBound(env: Network, ip: string, deadline: int, k: nat, now: int)
    requires now <= deadline + RetryInterval
    ensures var w := Await(env, ip, deadline, k, now);
      RetryInterval * (w.attempt - k) <= deadline - now + RetryInterval
    decreases if now <= deadline then deadline - now + 1 else 0
  {
    var t := now + env.elapsed(k);
    if env.dial(VncAddress(ip), k).DialFailed? && t <= deadline {
      AwaitAttemptBound(env, ip, deadline, k + 1, t + RetryInterval);
    }
  }

  /**
   * If no dial outlasts its timeout, the loop is over by the deadline plus
   * one sleep plus one dial timeout.
   */
  lemma {:induction false} AwaitTimeBound(env: Network, ip: string, deadline: int, k: nat, now: int)
    requires now <= deadline + RetryInterval
    requires forall j :: env.elapsed(j) <= DialTimeout
    ensures Await(env, ip, deadline, k, now).clock <= deadline + RetryInterval + DialTimeout
    decreases if now <= deadline then deadline - now + 1 else 0
  {
    var t := now + env.elapsed(k);
    if env.dial(VncAddress(ip), k).DialFailed? && t <= deadline {
      AwaitTimeBound(env, ip, deadline, k + 1, t + RetryInterval);
    }
  }

  /**
   * The wait the stream handler runs makes at most 41 attempts after the
   * first, and when dials respect their timeout it ends within 21.5 s.
   */
  lemma WaitForVncBounded(env: Network, ip: string, start: int)
    ensures WaitForVnc(env, ip, start).attempt <= ReadyWindow / RetryInterval + 1
    ensures (forall j :: env.elapsed(j) <= DialTimeout) ==>
      WaitForVnc(env, ip, start).clock <= start + ReadyWindow + RetryInterval + DialTimeout
  {
    AwaitAttemptBound(env, ip, start + ReadyWindow, 0, start);
    if forall j :: env.elapsed(j) <= DialTimeout {
      AwaitTimeBound(env, ip, start + ReadyWindow, 0, start);
    }
  }

  /** A VNC server that accepts on the first dial is used at once, before any sleep. */
  lemma FirstDialConnects(env: Network, ip: string, start: int)
    requires env.dial(VncAddress(ip), 0).Connected?
    ensures WaitForVnc(env, ip, start) == Ready(env.dial(VncAddress(ip), 0).conn, 0, start + env.elapsed(0))
  {
  }
}

=== FILE: relay.dfy ===
/**
 * The two copy loops of the VNC stream relay, each as a pure function of the
 * sequence of read results (and write outcomes) its goroutine observes.
 * A direction whose input runs out without an error has not ended: its
 * goroutine is still blocked on the next read.
 */
module Relay {
  import Seqs

  newtype Byte = b: int | 0 <= b < 256
  type Bytes = seq<Byte>

  /** Size of the buffer the TCP side reads into. */
  const ReadBufferSize: nat := 8192

  /** The data-message types a WebSocket read can return; control frames never reach the loop. */
  datatype MessageType = TextMessage | BinaryMessage

  // ----- WebSocket -> TCP ---------------------------------------------------

  /** Outcome of writing one payload to the TCP connection; a failed write may have sent a prefix. */
  datatype TcpWrite = Written | WriteFailed(accepted: nat)

  /** One `ReadMessage` result, with the outcome of the TCP write it leads to (binary messages only). */
  datatype WsRead =
    | Received(kind: MessageType, data: Bytes, write: TcpWrite)
    | WsReadFailed

  /** What the WebSocket-to-TCP loop put on the TCP connection, and whether it returned. */
  datatype Upstream = Upstream(written: Bytes, ended: bool)

  /** A read that makes the WebSocket-to-TCP loop return. */
  predicate StopsUpstream(e: WsRead) {
    e.WsReadFailed? || (e.kind == BinaryMessage && e.write.WriteFailed?)
  }

  predicate IsBinary(e: WsRead) {
    e.Received? && e.kind == BinaryMessage
  }

  /** The concatenated payloads of the binary messages, in order: what a loop that never failed would write. */
  function BinaryPayload(frames: seq<WsRead>): Bytes
  {
    if |frames| == 0 then []
    else (if IsBinary(frames[0]) then frames[0].data else []) + BinaryPayload(frames[1..])
  }

  function Min(a: nat, b: nat): nat { if a < b then a else b }

  /** The WebSocket-to-TCP loop: binary payloads are written verbatim, other messages are skipped. */
  function WsToTcp(frames: seq<WsRead>): (u: Upstream)
    ensures u.ended <==> exists i :: 0 <= i < |frames| && StopsUpstream(frames[i])
    ensures u.written <= BinaryPayload(frames)
    ensures !u.ended ==> u.written == BinaryPayload(frames)
  {
    if |frames| == 0 then Upstream([], false)
    else
      var rest := frames[1..];
      assert forall i :: 0 <= i < |rest| ==> rest[i] == frames[i + 1];
      match frames[0]
      case WsReadFailed => Upstream([], true)
      case Received(kind, data, write) =>
        if kind != BinaryMessage then WsToTcp(rest)
        else match write
          case WriteFailed(n) => Upstream(data[..Min(n, |data|)], true)
          case Written =>
            var tail := WsToTcp(rest);
            Upstream(data + tail.written, tail.ended)
  }

  /** Index of the first frame that makes the loop return, or `|frames|` if none does. */
  function FirstUpstreamStop(frames: seq<WsRead>): (k: nat)
    ensures k <= |frames|
    ensures forall j :: 0 <= j < k ==> !StopsUpstream(frames[j])
    ensures k < |frames| ==> StopsUpstream(frames[k])
  {
    if |frames| == 0 then 0
    else if StopsUpstream(frames[0]) then 0
    else 1 + FirstUpstreamStop(frames[1..])
  }

  /** The part of a stopping frame's payload that reached TCP before the write failed. */
  function Accepted(e: WsRead): Bytes
  {
    if IsBinary(e) && e.write.WriteFailed? then e.data[..Min(e.write.accepted, |e.data|)] else []
  }

  lemma BinaryPayloadCons(frames: seq<WsRead>)
    requires |frames| > 0
    ensures BinaryPayload(frames) == (if IsBinary(frames[0]) then frames[0].data else []) + BinaryPayload(frames[1..])
  {
  }

  /**
   * Exactly the payloads of the binary messages before the first failure reach
   * TCP, in order, followed by whatever part of the failing write got through.
   */
  lemma {:induction false} WsToTcpUpToFirstStop(frames: seq<WsRead>)
    ensures var k := FirstUpstreamStop(frames);
      WsToTcp(frames).written
        == BinaryPayload(frames[..k]) + (if k < |frames| then Accepted(frames[k]) else [])
  {
    if |frames| > 0 && !StopsUpstream(frames[0]) {
      var rest := frames[1..];
      var k' := FirstUpstreamStop(rest);
      WsToTcpUpToFirstStop(rest);
      assert frames[..1 + k'][1..] == rest[..k'];
      BinaryPayloadCons(frames[..1 + k']);
      if k' < |rest| {
        assert frames[1 + k'] == rest[k'];
      }
    } else if |frames| > 0 {
      assert frames[..0] == [];
    }
  }

  /**
   * Streaming is compositional: once a prefix of frames has been relayed
   * without failure, the loop continues on the remainder as if fresh.
   */
  lemma {:induction false} WsToTcpAppend(a: seq<WsRead>, b: seq<WsRead>)
    requires forall i :: 0 <= i < |a| ==> !StopsUpstream(a[i])
    ensures WsToTcp(a + b) == Upstream(BinaryPayload(a) + WsToTcp(b).written, WsToTcp(b).ended)
  {
    var w := WsToTcp(b);
    if |a| == 0 {
      assert a + b == b;
      assert BinaryPayload(a) + w.written == w.written;
    } else {
      var ab := a + b;
      assert ab[0] == a[0];
      assert ab[1..] == a[1..] + b;
      var head := if IsBinary(a[0]) then a[0].data else [];
      var rest := BinaryPayload(a[1..]);
      WsToTcpAppend(a[1..], b);
      WsToTcpStep(ab);
      assert WsToTcp(ab) == Upstream(head + (rest + w.written), w.ended);
      BinaryPayloadCons(a);
      assert BinaryPayload(a) == head + rest;
      Seqs.ConcatAssoc(head, rest, w.written);
    }
  }

  /** One frame that does not stop the loop: its payload, if binary, precedes everything after it. */
  lemma WsToTcpStep(frames: seq<WsRead>)
    requires |frames| > 0 && !StopsUpstream(frames[0])
    ensures var tail := WsToTcp(frames[1..]);
      WsToTcp(frames)
        == Upstream((if IsBinary(frames[0]) then frames[0].data else []) + tail.written, tail.ended)
  {
  }

  /** Text messages are never forwarded: a client that only sends text puts no byte on TCP. */
  lemma {:induction false} TextMessagesDropped(frames: seq<WsRead>)
    requires forall i :: 0 <= i < |frames| ==> frames[i].Received? && frames[i].kind == TextMessage
    ensures WsToTcp(frames) == Upstream([], false)
  {
    if |frames| > 0 {
      TextMessagesDropped(frames[1..]);
    }
  }

  // ----- TCP -> WebSocket ---------------------------------------------------

  /** What one `Read` into the 8192-byte buffer can return. */
  type Chunk = b: Bytes | |b| <= ReadBufferSize

  /** Outcome of `WriteMessage` on the WebSocket. */
  datatype WsWrite = Sent | SendFailed

  /** One TCP `Read` result, with the outcome of the message send it leads to (non-empty reads only). */
  datatype TcpRead =
    | Read(data: Chunk, send: WsWrite)
    | TcpReadFailed

  datatype WsMessage = WsMessage(kind: MessageType, data: Bytes)

  /** The messages the TCP-to-WebSocket loop delivered, and whether it returned. */
  datatype Downstream = Downstream(sent: seq<WsMessage>, ended: bool)

  /** A read that makes the TCP-to-WebSocket loop return. */
  predicate StopsDownstream(e: TcpRead) {
    e.TcpReadFailed? || (|e.data| > 0 && e.send == SendFailed)
  }

  /** One binary message per non-empty read, in order: what a loop that never failed would send. */
  function ChunkMessages(chunks: seq<TcpRead>): seq<WsMessage>
  {
    if |chunks| == 0 then []
    else
      (if chunks[0].Read? && |chunks[0].data| > 0 then [WsMessage(BinaryMessage, chunks[0].data)] else [])
      + ChunkMessages(chunks[1..])
  }

  /** The TCP-to-WebSocket loop: each non-empty read becomes one binary message. */
  function TcpToWs(chunks: seq<TcpRead>): (d: Downstream)
    ensures d.ended <==> exists i :: 0 <= i < |chunks| && StopsDownstream(chunks[i])
    ensures d.sent <= ChunkMessages(chunks)
    ensures !d.ended ==> d.sent == ChunkMessages(chunks)
    ensures forall j :: 0 <= j < |d.sent| ==>
              d.sent[j].kind == BinaryMessage && 0 < |d.sent[j].data| <= ReadBufferSize
  {
    if |chunks| == 0 then Downstream([], false)
    else
      var rest := chunks[1..];
      assert forall i :: 0 <= i < |rest| ==> rest[i] == chunks[i + 1];
      match chunks[0]
      case TcpReadFailed => Downstream([], true)
      case Read(data, send) =>
        if |data| == 0 then TcpToWs(rest)
        else if send == SendFailed then Downstream([], true)
        else
          var tail := TcpToWs(rest);
          Downstream([WsMessage(BinaryMessage, data)] + tail.sent, tail.ended)
  }

  /** Index of the first read that makes the loop return, or `|chunks|` if none does. */
  function FirstDownstreamStop(chunks: seq<TcpRead>): (k: nat)
    ensures k <= |chunks|
    ensures forall j :: 0 <= j < k ==> !StopsDownstream(chunks[j])
    ensures k < |chunks| ==> StopsDownstream(chunks[k])
  {
    if |chunks| == 0 then 0
    else if StopsDownstream(chunks[0]) then 0
    else 1 + FirstDownstreamStop(chunks[1..])
  }

  /** Every byte read from TCP, in order. */
  function ReadBytes(chunks: seq<TcpRead>): Bytes
  {
    if |chunks| == 0 then []
    else (if chunks[0].Read? then chunks[0].data else []) + ReadBytes(chunks[1..])
  }

  /** The payloads of a message sequence, concatenated. */
  function Flatten(msgs: seq<WsMessage>): Bytes
  {
    if |msgs| == 0 then [] else msgs[0].data + Flatten(msgs[1..])
  }

  lemma FlattenAppend(a: seq<WsMessage>, b: seq<WsMessage>)
    ensures Flatten(a + b) == Flatten(a) + Flatten(b)
  {
    if |a| > 0 {
      assert (a + b)[1..] == a[1..] + b;
    } else {
      assert a + b == b;
    }
  }

  /** The message stream carries exactly the bytes read, empty reads contributing nothing. */
  lemma {:induction false} ChunkMessagesCarryReadBytes(chunks: seq<TcpRead>)
    ensures Flatten(ChunkMessages(chunks)) == ReadBytes(chunks)
  {
    if |chunks| > 0 {
      ChunkMessagesCarryReadBytes(chunks[1..]);
      var head := if chunks[0].Read? && |chunks[0].data| > 0 then [WsMessage(BinaryMessage, chunks[0].data)] else [];
      FlattenAppend(head, ChunkMessages(chunks[1..]));
      if chunks[0].Read? && |chunks[0].data| == 0 {
        assert chunks[0].data == [];
      }
    }
  }

  lemma ChunkMessagesCons(chunks: seq<TcpRead>)
    requires |chunks| > 0
    ensures ChunkMessages(chunks)
      == (if chunks[0].Read? && |chunks[0].data| > 0 then [WsMessage(BinaryMessage, chunks[0].data)] else [])
         + ChunkMessages(chunks[1..])
  {
  }

  /** The loop sends one message per non-empty read before the first failure, and nothing else. */
  lemma {:induction false} TcpToWsUpToFirstStop(chunks: seq<TcpRead>)
    ensures TcpToWs(chunks).sent == ChunkMessages(chunks[..FirstDownstreamStop(chunks)])
  {
    if |chunks| > 0 && !StopsDownstream(chunks[0]) {
      var rest := chunks[1..];
      var k' := FirstDownstreamStop(rest);
      TcpToWsUpToFirstStop(rest);
      assert chunks[..1 + k'][1..] == rest[..k'];
      ChunkMessagesCons(chunks[..1 + k']);
    } else if |chunks| > 0 {
      assert chunks[..0] == [];
    }
  }

  /** Byte-exact relay: the WebSocket receives exactly the bytes read from TCP before the first failure. */
  lemma TcpToWsByteExact(chunks: seq<TcpRead>)
    ensures Flatten(TcpToWs(chunks).sent) == ReadBytes(chunks[..FirstDownstreamStop(chunks)])
  {
    TcpToWsUpToFirstStop(chunks);
    ChunkMessagesCarryReadBytes(chunks[..FirstDownstreamStop(chunks)]);
  }

  /** A zero-length read sends nothing and does not stop the loop. */
  lemma EmptyReadSendsNothing(send: WsWrite, rest: seq<TcpRead>)
    ensures TcpToWs([Read([], send)] + rest) == TcpToWs(rest)
  {
    assert ([Read([], send)] + rest)[1..] == rest;
  }

  /** Streaming is compositional on the TCP side too. */
  lemma {:induction false} TcpToWsAppend(a: seq<TcpRead>, b: seq<TcpRead>)
    requires forall i :: 0 <= i < |a| ==> !StopsDownstream(a[i])
    ensures TcpToWs(a + b) == Downstream(ChunkMessages(a) + TcpToWs(b).sent, TcpToWs(b).ended)
  {
    var w := TcpToWs(b);
    if |a| == 0 {
      assert a + b == b;
      assert ChunkMessages(a) + w.sent == w.sent;
    } else {
      var ab := a + b;
      assert ab[0] == a[0];
      assert ab[1..] == a[1..] + b;
      var head := if a[0].Read? && |a[0].data| > 0 then [WsMessage(BinaryMessage, a[0].data)] else [];
      var rest := ChunkMessages(a[1..]);
      TcpToWsAppend(a[1..], b);
      TcpToWsStep(ab);
      assert TcpToWs(ab) == Downstream(head + (rest + w.sent), w.ended);
      ChunkMessagesCons(a);
      assert ChunkMessages(a) == head + rest;
      Seqs.ConcatAssoc(head, rest, w.sent);
    }
  }

  /** One read that does not stop the loop: its message, if any, precedes everything after it. */
  lemma TcpToWsStep(chunks: seq<TcpRead>)
    requires |chunks| > 0 && !StopsDownstream(chunks[0])
    ensures var tail := TcpToWs(chunks[1..]);
      TcpToWs(chunks)
        == Downstream((if chunks[0].Read? && |chunks[0].data| > 0
                       then [WsMessage(BinaryMessage, chunks[0].data)] else []) + tail.sent, tail.ended)
  {
  }

  /** Three bytes read in one chunk arrive as exactly one binary message carrying those three bytes. */
  lemma ThreeBytesOneMessage()
    ensures TcpToWs([Read([1, 2, 3], Sent)]).sent == [WsMessage(BinaryMessage, [1, 2, 3])]
  {
    assert [Read([1, 2, 3], Sent)][1..] == [];
  }
}

=== FILE: response.dfy ===
/**
 * The JSON envelope helpers every API reply goes through: success and error
 * envelopes, the fixed-message error helpers, validation errors and the
 * paginated list reply. Go's int64 arithmetic and its panics are explicit.
 */
module Response {

  const StatusOK: int := 200
  const StatusBadRequest: int := 400
  const StatusUnauthorized: int := 401
  const StatusNotFound: int := 404
  const StatusInternalServerError: int := 500

  const MinInt64: int := -0x8000_0000_0000_0000
  const MaxInt64: int := 0x7FFF_FFFF_FFFF_FFFF
  const TwoTo64: int := 0x1_0000_0000_0000_0000

  /** Go's `int64`; `int` is taken to be 64 bits wide as well. */
  type Int64 = x: int | MinInt64 <= x <= MaxInt64

  /** A Go computation that either returns or panics. */
  datatype Result<T> = Ok(value: T) | Panic(message: string)

  /** Go values as they reach `interface{}` parameters. */
  datatype Any =
    | Nil
    | Interfaces(elems: seq<Any>)                 // a value of type []interface{}
    | TypedSlice(elemType: string, elems: seq<Any>) // a slice of any other element type
    | Scalar(repr: string)                          // any other value
    | Paginated(page: PaginatedData)

  datatype PaginatedData = PaginatedData(items: seq<Any>, total: Int64, page: Int64, limit: Int64, pages: Int64)

  /** The envelope; empty strings and `Nil` are the fields `omitempty` leaves out. */
  datatype Body = Body(success: bool, message: string, data: Any, error: string)

  datatype Reply = Reply(status: int, body: Body)

  // ----- envelopes -------------------------------------------------------------

  /** A success envelope: the client reads back the message and data, and no error is set. */
  function SuccessResponse(status: int, message: string, data: Any): (r: Reply)
    ensures r.status == status && Read(r) == Succeeded(message, data) && r.body.error == ""
  {
    Reply(status, Body(true, message, data, ""))
  }

  /** An error envelope: the client reads back the error text, and no message or data is set. */
  function ErrorResponse(status: int, message: string): (r: Reply)
    ensures r.status == status && Read(r) == Failed(message) && r.body.message == "" && r.body.data == Nil
  {
    Reply(status, Body(false, "", Nil, message))
  }

  /** What a client reads from an envelope: a success with its message and data, or an error text. */
  datatype Reading = Succeeded(message: string, data: Any) | Failed(error: string)

  function Read(r: Reply): Reading {
    if r.body.success then Succeeded(r.body.message, r.body.data) else Failed(r.body.error)
  }

  /** A success envelope and an error envelope never coincide, whatever their arguments. */
  lemma EnvelopesDistinct(status: int, message: string, data: Any, error: string)
    ensures SuccessResponse(status, message, data) != ErrorResponse(status, error)
  {
  }

  // ----- fixed-message errors ---------------------------------------------------

  /** 401; an empty message is replaced by "Unauthorized". */
  function UnauthorizedResponse(message: string): (r: Reply)
    ensures r.status == StatusUnauthorized
    ensures Read(r).Failed? && Read(r).error != ""
    ensures r.body.message == "" && r.body.data == Nil
    ensures message != "" ==> Read(r) == Failed(message)
  {
    ErrorResponse(StatusUnauthorized, if message == "" then "Unauthorized" else message)
  }

  /** 404; an empty message is replaced by "Resource not found". */
  function NotFoundResponse(message: string): (r: Reply)
    ensures r.status == StatusNotFound
    ensures Read(r).Failed? && Read(r).error != ""
    ensures r.body.message == "" && r.body.data == Nil
    ensures message != "" ==> Read(r) == Failed(message)
  {
    ErrorResponse(StatusNotFound, if message == "" then "Resource not found" else message)
  }

  /** The default texts stand in only for an empty message. */
  lemma DefaultMessages()
    ensures Read(UnauthorizedResponse("")) == Failed("Unauthorized")
    ensures Read(NotFoundResponse("")) == Failed("Resource not found")
  {
  }

  /** An error value, as far as the helpers look at it. */
  datatype FieldError = FieldError(field: string, tag: string)
  datatype GoError =
    | NilError
    | ValidationErrors(errs: seq<FieldError>)  // validator.ValidationErrors itself, not wrapped
    | OtherError(text: string)

  /** 500 "Internal server error", whatever the error was: its text never reaches the client. */
  function ServerErrorResponse(err: GoError): (r: Reply)
    ensures r.status == StatusInternalServerError && Read(r) == Failed("Internal server error")
    ensures r.body.message == "" && r.body.data == Nil
  {
    ErrorResponse(StatusInternalServerError, "Internal server error")
  }

  /** Two different errors give the same server-error reply. */
  lemma ServerErrorIgnoresError(e1: GoError, e2: GoError)
    ensures ServerErrorResponse(e1) == ServerErrorResponse(e2)
  {
  }

  const ValidationPrefix: string := "Validation failed: "

  /**
   * 400 naming the first failed validation tag, or "Invalid request data" for
   * any other error. An empty `ValidationErrors` slice panics on `[0]`.
   */
  function ValidationErrorResponse(err: GoError): (r: Result<Reply>)
    ensures r.Panic? <==> err.ValidationErrors? && |err.errs| == 0
    ensures r.Ok? ==> r.value.status == StatusBadRequest && Read(r.value).Failed?
    ensures r.Ok? ==> r.value.body.message == "" && r.value.body.data == Nil
    ensures r.Ok? && err.ValidationErrors? ==>
      var text := Read(r.value).error;
      |ValidationPrefix| <= |text| && text[..|ValidationPrefix|] == ValidationPrefix
      && text[|ValidationPrefix|..] == err.errs[0].tag
    ensures !err.ValidationErrors? ==> r == Ok(ErrorResponse(StatusBadRequest, "Invalid request data"))
  {
    match err
    case ValidationErrors(errs) =>
      if |errs| == 0 then Panic("runtime error: index out of range [0] with length 0")
      else Ok(ErrorResponse(StatusBadRequest, ValidationPrefix + errs[0].tag))
    case _ => Ok(ErrorResponse(StatusBadRequest, "Invalid request data"))
  }

  /** Validation replies for different first tags differ: the reply identifies the failed rule. */
  lemma ValidationNamesFirstTag(e1: seq<FieldError>, e2: seq<FieldError>)
    requires |e1| > 0 && |e2| > 0
    ensures ValidationErrorResponse(ValidationErrors(e1)) == ValidationErrorResponse(ValidationErrors(e2))
        <==> e1[0].tag == e2[0].tag
  {
    var r1 := ValidationErrorResponse(ValidationErrors(e1));
    var r2 := ValidationErrorResponse(ValidationErrors(e2));
    if r1 == r2 {
      assert e1[0].tag == Read(r1.value).error[|ValidationPrefix|..];
    }
  }

  // ----- pagination -------------------------------------------------------------

  /** Two's-complement wrap-around of int64 arithmetic. */
  function Wrap64(x: int): (r: Int64)
    ensures (x - r) % TwoTo64 == 0
    ensures MinInt64 <= x <= MaxInt64 ==> r == x
  {
    (x - MinInt64) % TwoTo64 + MinInt64
  }

  function Abs(x: int): nat { if x < 0 then -x else x }

  /** Go's integer `/`: the quotient truncated toward zero. */
  function Quo(a: int, b: int): (q: int)
    requires b != 0
    ensures var rem := a - q * b; Abs(rem) < Abs(b) && (a >= 0 ==> rem >= 0) && (a <= 0 ==> rem <= 0)
  {
    var m := Abs(a) / Abs(b);
    var q := if (a < 0) != (b < 0) then -m else m;
    QuoRemainder(a, b, m, q);
    q
  }

  lemma QuoRemainder(a: int, b: int, m: int, q: int)
    requires b != 0 && m == Abs(a) / Abs(b)
    requires q == if (a < 0) != (b < 0) then -m else m
    ensures var rem := a - q * b; Abs(rem) < Abs(b) && (a >= 0 ==> rem >= 0) && (a <= 0 ==> rem <= 0)
  {
    var A, B := Abs(a), Abs(b);
    var r0 := A - m * B;
    assert 0 <= r0 < B;
    if a >= 0 && b > 0 {
      assert a - q * b == r0;
    } else if a < 0 && b < 0 {
      assert q * b == -(m * B);
      assert a - q * b == -r0;
    } else if a < 0 {
      assert q * b == -(m * B);
      assert a - q * b == -r0;
    } else {
      assert q * b == m * B;
      assert a - q * b == r0;
    }
  }

  /** `(total + int64(limit) - 1) / int64(limit)` in int64: panics on a zero limit. */
  function Pages(total: Int64, limit: Int64): (p: Result<Int64>)
    ensures p.Panic? <==> limit == 0
    ensures 0 <= total && 0 < limit && total + limit - 1 <= MaxInt64 ==>
      && p.Ok?
      && p.value * limit >= total
      && (total > 0 ==> (p.value - 1) * limit < total)
      && (total == 0 ==> p.value == 0)
  {
    if limit == 0 then Panic("runtime error: integer divide by zero")
    else
      PagesWithoutOverflow(total, limit);
      Ok(Wrap64(Quo(Wrap64(Wrap64(total + limit) - 1), limit)))
  }

  /** Without overflow the int64 expression is the mathematical `(total + limit - 1) / limit`. */
  lemma PagesWithoutOverflow(total: Int64, limit: Int64)
    ensures 0 <= total && 0 < limit && total + limit - 1 <= MaxInt64 ==>
      var q := Wrap64(Quo(Wrap64(Wrap64(total + limit) - 1), limit));
      q * limit >= total && (total > 0 ==> (q - 1) * limit < total) && (total == 0 ==> q == 0)
  {
    if 0 <= total && 0 < limit && total + limit - 1 <= MaxInt64 {
      NumeratorFits(total, limit);
      QuoOfNonNegative(total + limit - 1, limit);
      CeilingDivision(total, limit);
    }
  }

  /** `total + limit - 1` survives int64 arithmetic when the final value fits, even if `total + limit` wraps. */
  lemma NumeratorFits(total: Int64, limit: Int64)
    requires 0 <= total && 0 < limit && total + limit - 1 <= MaxInt64
    ensures Wrap64(Wrap64(total + limit) - 1) == total + limit - 1
  {
    if total + limit > MaxInt64 {
      assert Wrap64(total + limit) == MinInt64;
    }
  }

  lemma QuoOfNonNegative(a: Int64, b: Int64)
    requires 0 <= a && 0 < b
    ensures Quo(a, b) == a / b && Wrap64(Quo(a, b)) == a / b
  {
    assert Abs(a) == a && Abs(b) == b;
    DivBounds(a, b);
  }

  /** For `0 <= a` and `0 < b`, `0 <= a / b <= a`; the quotient therefore fits wherever `a` does. */
  lemma DivBounds(a: int, b: int)
    requires 0 <= a && 0 < b
    ensures 0 <= a / b <= a
  {
    var q, r := a / b, a % b;
    assert a == q * b + r && 0 <= r < b;
    if q < 0 {
      MulAtLeast(b, -q);
    } else if q > a {
      MulAtLeast(q, b);
    }
  }

  lemma {:induction false} MulAtLeast(x: int, y: int)
    requires 0 <= x && 1 <= y
    ensures x * y >= x
    decreases y
  {
    if y > 1 {
      MulAtLeast(x, y - 1);
      assert x * y == x * (y - 1) + x;
    }
  }

  /** For a non-negative total and a positive limit, `(total + limit - 1) / limit` is the ceiling of total/limit. */
  lemma CeilingDivision(total: int, limit: int)
    ensures 0 <= total && 0 < limit ==>
      var q := (total + limit - 1) / limit;
      q * limit >= total && (total > 0 ==> (q - 1) * limit < total) && (total == 0 ==> q == 0)
  {
    if 0 <= total && 0 < limit {
      var n := total + limit - 1;
      var q := n / limit;
      assert n == q * limit + n % limit;
      assert (q - 1) * limit == q * limit - limit;
    }
  }

  /** A negative numerator rounds toward zero (-3 / 2 is -1), not down as Euclidean division would (-2). */
  lemma PagesTruncatesTowardZero()
    ensures Pages(-4, 2) == Ok(-1)
  {
  }

  /** A total within `limit` of the int64 maximum wraps the numerator and yields a negative page count. */
  lemma PagesOverflow()
    ensures Pages(MaxInt64, 2) == Ok(-0x4000_0000_0000_0000)
  {
  }

  /** `items` is used as-is only when it is exactly `[]interface{}`; anything else becomes a one-element list. */
  function WrapItems(items: Any): (list: seq<Any>)
    ensures items.Interfaces? ==> list == items.elems
    ensures !items.Interfaces? ==> list == [items]
  {
    if items.Interfaces? then items.elems else [items]
  }

  /** The list handed out, passed back in as a `[]interface{}`, comes out unchanged. */
  lemma WrapItemsStable(items: Any)
    ensures WrapItems(Interfaces(WrapItems(items))) == WrapItems(items)
  {
  }

  /** 200 "Retrieved successfully" with the wrapped items, the inputs passed through and the page count. */
  function PaginatedResponse(items: Any, total: Int64, page: Int64, limit: Int64): (r: Result<Reply>)
    ensures r.Panic? <==> limit == 0
    ensures r.Ok? ==>
      && r.value.status == StatusOK
      && Read(r.value).Succeeded?
      && r.value.body.error == ""
      && Read(r.value).message == "Retrieved successfully"
      && Read(r.value).data.Paginated?
      && var d := Read(r.value).data.page;
      && d.items == WrapItems(items) && d.total == total && d.page == page && d.limit == limit
      && (0 <= total && 0 < limit && total + limit - 1 <= MaxInt64 ==>
            && d.pages * limit >= total
            && (total > 0 ==> (d.pages - 1) * limit < total)
            && (total == 0 ==> d.pages == 0))
  {
    match Pages(total, limit)
    case Panic(msg) => Panic(msg)
    case Ok(pages) =>
      Ok(SuccessResponse(StatusOK, "Retrieved successfully",
                         Paginated(PaginatedData(WrapItems(items), total, page, limit, pages))))
  }
}

=== FILE: seqs.dfy ===
/** Small facts about sequences that the solver does not find unaided in large contexts. */
module Seqs {

  lemma ConcatAssoc<T>(x: seq<T>, y: seq<T>, z: seq<T>)
    ensures x + (y + z) == (x + y) + z
  {
  }
}

=== FILE: statusbadge.dfy ===
/**
 * The status badge of the web interface: a status string is normalised,
 * looked up in a fixed table of colours and labels with `inactive` as the
 * fallback, and rendered with an optional custom label and extra classes.
 */
module StatusBadge {
  import opened Wrappers

  datatype StatusConfig = StatusConfig(bg: string, text: string, labelText: string)

  /** The six known statuses. */
  const StatusConfigs: map<string, StatusConfig> := map[
    "active"      := StatusConfig("bg-green-100", "text-green-800", "Active"),
    "inactive"    := StatusConfig("bg-gray-100", "text-gray-800", "Inactive"),
    "pending"     := StatusConfig("bg-orange-100", "text-orange-800", "Pending"),
    "planning"    := StatusConfig("bg-blue-100", "text-blue-800", "Planning"),
    "in-progress" := StatusConfig("bg-yellow-100", "text-yellow-800", "In Progress"),
    "completed"   := StatusConfig("bg-purple-100", "text-purple-800", "Completed")
  ]

  const BaseClasses: string := "inline-flex items-center rounded-full border px-2.5 py-0.5 text-xs font-semibold"

  predicate IsUpper(c: char) { 'A' <= c <= 'Z' }

  function LowerChar(c: char): char {
    if IsUpper(c) then (c as int + 32) as char else c
  }

  /** `toLowerCase` on the ASCII letters. */
  function ToLower(s: string): (r: string)
    ensures |r| == |s|
    ensures forall i :: 0 <= i < |s| ==> r[i] == LowerChar(s[i])
  {
    if |s| == 0 then [] else [LowerChar(s[0])] + ToLower(s[1..])
  }

  /** Index of the first space, or the length when there is none. */
  function FirstSpace(s: string): (i: nat)
    ensures i <= |s|
    ensures forall j :: 0 <= j < i ==> s[j] != ' '
    ensures i < |s| ==> s[i] == ' '
  {
    if |s| == 0 || s[0] == ' ' then 0 else 1 + FirstSpace(s[1..])
  }

  /** `replace(' ', '-')` with a string pattern: only the first space is replaced. */
  function ReplaceFirstSpace(s: string): (r: string)
    ensures |r| == |s|
    ensures forall j :: 0 <= j < |s| ==> r[j] == (if j == FirstSpace(s) then '-' else s[j])
  {
    var i := FirstSpace(s);
    if i < |s| then s[..i] + "-" + s[i + 1..] else s
  }

  /**
   * The table key a status selects: the status lower-cased, with a dash in
   * place of its first space.
   */
  function Normalize(status: string): (key: string)
    ensures |key| == |status|
    ensures forall j :: 0 <= j < |status| ==>
      key[j] == (if j == FirstSpace(status) then '-' else LowerChar(status[j]))
  {
    FirstSpaceOfLower(status);
    ReplaceFirstSpace(ToLower(status))
  }

  /** Lower-casing moves no space: the first space is where it was. */
  lemma FirstSpaceOfLower(s: string)
    ensures FirstSpace(ToLower(s)) == FirstSpace(s)
  {
    var i := FirstSpace(s);
    var lower := ToLower(s);
    if i < |s| {
      FirstSpaceAt(lower, i);
    }
  }

  /** The table entry for a status, `inactive` when the normalised status is not a key. */
  function ConfigFor(status: string): (c: StatusConfig)
    ensures c in StatusConfigs.Values
    ensures Normalize(status) in StatusConfigs ==> c == StatusConfigs[Normalize(status)]
    ensures Normalize(status) !in StatusConfigs ==> c == StatusConfigs["inactive"]
  {
    var key := Normalize(status);
    if key in StatusConfigs then StatusConfigs[key] else StatusConfigs["inactive"]
  }

  /** The rendered badge: the arguments handed to `cn`, in order, and the text shown. */
  datatype Badge = Badge(classArgs: seq<Option<string>>, shown: string)

  /** `customLabel || config.label`: a missing or empty custom label falls back to the table's label. */
  function Label(config: StatusConfig, customLabel: Option<string>): string
  {
    match customLabel
    case Some(text) => if text != "" then text else config.labelText
    case None => config.labelText
  }

  /**
   * The badge for a status: base classes, the entry's colours and the
   * caller's classes last; the custom label if non-empty, else the entry's.
   */
  function Render(status: string, className: Option<string>, customLabel: Option<string>): (b: Badge)
    ensures |b.classArgs| == 4 && b.classArgs[0] == Some(BaseClasses) && b.classArgs[3] == className
    ensures var key := Normalize(status);
      var entry := if key in StatusConfigs then StatusConfigs[key] else StatusConfigs["inactive"];
      b.classArgs[1] == Some(entry.bg) && b.classArgs[2] == Some(entry.text)
      && b.shown == (if customLabel.Some? && customLabel.value != "" then customLabel.value else entry.labelText)
  {
    var config := ConfigFor(status);
    Badge([Some(BaseClasses), Some(config.bg), Some(config.text), className], Label(config, customLabel))
  }

  /** An empty custom label behaves exactly like none: JavaScript's `||` treats both as absent. */
  lemma EmptyCustomLabelIgnored(status: string, className: Option<string>)
    ensures Render(status, className, Some("")) == Render(status, className, None)
  {
  }

  // ----- properties -------------------------------------------------------------

  /** Every table key is its own normal form, so each known status selects its own entry. */
  lemma KnownKeysSelectThemselves(key: string)
    requires key in StatusConfigs
    ensures Normalize(key) == key
    ensures ConfigFor(key) == StatusConfigs[key]
  {
    assert forall c :: c in key ==> !IsUpper(c) && c != ' ';
    NormalizeFixesLowerWords(key);
  }

  lemma NormalizeFixesLowerWords(s: string)
    requires forall c :: c in s ==> !IsUpper(c) && c != ' '
    ensures Normalize(s) == s
  {
    assert ToLower(s) == s;
  }

  /** Case does not matter: a status and its lower-case form select the same entry. */
  lemma ConfigIgnoresCase(status: string)
    ensures Normalize(ToLower(status)) == Normalize(status)
    ensures ConfigFor(ToLower(status)) == ConfigFor(status)
  {
    assert ToLower(ToLower(status)) == ToLower(status);
  }

  /** Display-style statuses select their entry: "In Progress" is "in-progress". */
  lemma DisplayNamesSelectEntries()
    ensures Normalize("In Progress") == "in-progress"
    ensures ConfigFor("In Progress") == StatusConfigs["in-progress"]
  {
    NormalizeAt("In Progress", "in progress", 2, "in-progress");
  }

  /** Only the first space becomes a dash: "in progress now" normalises to "in-progress now". */
  lemma OnlyFirstSpaceReplaced()
    ensures Normalize("in progress now") == "in-progress now"
  {
    NormalizeAt("in progress now", "in progress now", 2, "in-progress now");
  }

  /** No key contains a space, so a status still holding a space after normalising falls back to `inactive`. */
  lemma SpaceLeftFallsBack(status: string)
    requires ' ' in Normalize(status)
    ensures ConfigFor(status) == StatusConfigs["inactive"]
  {
    KeysHaveNoSpace();
  }

  lemma KeysHaveNoSpace()
    ensures forall key :: key in StatusConfigs ==> ' ' !in key
  {
    assert StatusConfigs.Keys == {"active", "inactive", "pending", "planning", "in-progress", "completed"};
  }

  /**
   * A status holding a character outside ASCII selects `inactive`: the
   * character survives normalisation, and every key is ASCII.
   */
  lemma NonAsciiFallsBack(status: string, j: nat)
    requires j < |status| && status[j] as int >= 128
    ensures ConfigFor(status) == StatusConfigs["inactive"]
  {
    var key := Normalize(status);
    assert key[j] == status[j];
    KeysAreAscii();
  }

  lemma KeysAreAscii()
    ensures forall key, i :: key in StatusConfigs && 0 <= i < |key| ==> key[i] as int < 128
  {
    assert StatusConfigs.Keys == {"active", "inactive", "pending", "planning", "in-progress", "completed"};
  }

  /** Normalising `status`, whose lower-case form is `lower` with its first space at `i`, gives `key`. */
  lemma NormalizeAt(status: string, lower: string, i: nat, key: string)
    requires |status| == |lower| && forall j :: 0 <= j < |status| ==> LowerChar(status[j]) == lower[j]
    requires i < |lower| && lower[i] == ' ' && forall j :: 0 <= j < i ==> lower[j] != ' '
    requires |key| == |lower| && key[i] == '-' && forall j :: 0 <= j < |lower| && j != i ==> key[j] == lower[j]
    ensures Normalize(status) == key
  {
    LowerEquals(status, lower);
    FirstSpaceAt(lower, i);
    ReplacedAt(lower, i, key);
  }

  lemma LowerEquals(s: string, t: string)
    requires |s| == |t| && forall i :: 0 <= i < |s| ==> LowerChar(s[i]) == t[i]
    ensures ToLower(s) == t
  {
  }

  lemma FirstSpaceAt(s: string, i: nat)
    requires i < |s| && s[i] == ' ' && forall j :: 0 <= j < i ==> s[j] != ' '
    ensures FirstSpace(s) == i
  {
  }

  lemma ReplacedAt(s: string, i: nat, t: string)
    requires FirstSpace(s) == i < |s| && |t| == |s|
    requires t[i] == '-' && forall j :: 0 <= j < |s| && j != i ==> t[j] == s[j]
    ensures ReplaceFirstSpace(s) == t
  {
  }

  /** The badge reads "Inactive" exactly when the status is unknown or is `inactive` itself (no custom label). */
  lemma InactiveExactlyWhenUnknown(status: string)
    ensures ConfigFor(status).labelText == "Inactive"
        <==> Normalize(status) !in StatusConfigs || Normalize(status) == "inactive"
  {
  }
}

=== FILE: vm.dfy ===
/**
 * The decision logic of the VM controller's handlers: start, stop and stream.
 * Each handler is a function of the request's VM id, the runtime's container
 * set before the call and the outcomes the runtime and network report; it
 * yields the HTTP reply, the `docker` commands issued, in order, and the
 * container set afterwards.
 */
module VmController {
  import opened Wrappers
  import opened Docker
  import GoStrings
  import Relay
  import Readiness

  const StatusOK: int := 200
  const StatusBadRequest: int := 400
  const StatusInternalServerError: int := 500
  const StatusBadGateway: int := 502

  const ContainerPrefix: string := "vm-"

  /** The container that backs VM `id`: every handler derives it the same way, so no id table exists. */
  function ContainerName(id: string): (name: string)
    ensures |name| == |ContainerPrefix| + |id|
    ensures name[..|ContainerPrefix|] == ContainerPrefix && name[|ContainerPrefix|..] == id
  {
    ContainerPrefix + id
  }

  /** Distinct VM ids never share a container, and the id is recoverable from the name. */
  lemma ContainerNameInjective(a: string, b: string)
    ensures ContainerName(a) == ContainerName(b) <==> a == b
    ensures ContainerName(a)[|ContainerPrefix|..] == a
  {
    if ContainerName(a) == ContainerName(b) {
      assert a == ContainerName(a)[|ContainerPrefix|..];
      assert b == ContainerName(b)[|ContainerPrefix|..];
    }
  }

  /** A handler's result: status, reply body, the commands issued, and the containers afterwards. */
  datatype Handled<R> = Handled(status: int, reply: R, commands: seq<Command>, containers: Containers)

  // ----- start ---------------------------------------------------------------

  /** What the runtime reports during a start: the run, the running-state inspect, the logs, the cleanup. */
  datatype StartEnv = StartEnv(run: RunOutcome, inspect: Output, logs: string, remove: Effect)

  datatype StartReply =
    | StartError(error: string, output: string)
    | StartBody(vmId: string, containerId: string, running: bool, message: string, logs: string)

  /**
   * The container is running exactly when inspect succeeded and printed
   * `true`, surrounded by nothing but white space.
   */
  function IsRunning(inspect: Output): (running: bool)
    ensures running <==> !inspect.Failed() && exists pre, post ::
      GoStrings.AllSpace(pre) && GoStrings.AllSpace(post) && inspect.text == pre + "true" + post
  {
    GoStrings.TrimSpaceYields(inspect.text, "true");
    GoStrings.TrimSpace(inspect.text) == "true" && !inspect.Failed()
  }

  /** Start VM `id` (a fresh UUID in the service): run its container and check that it is running. */
  function Start(id: string, env: StartEnv, before: Containers): (h: Handled<StartReply>)
    // a failed run is a 500 carrying the run's output; nothing is inspected or removed
    ensures env.run.RunFailed? ==>
      && h.status == StatusInternalServerError
      && h.reply == StartError("failed to start vm: " + env.run.error, env.run.output)
      && h.commands == [Run(ContainerName(id))]
    // ... and whatever the failed run left behind stays: nothing cleans it up
    ensures env.run.RunFailed? ==>
      (ContainerName(id) in h.containers <==> ContainerName(id) in before || env.run.leftCreated)
    // a successful run always answers 200 with the trimmed container id
    ensures env.run.RunSucceeded? ==>
      && h.status == StatusOK
      && h.reply.StartBody?
      && h.reply.vmId == id
      && h.reply.containerId == GoStrings.TrimSpace(env.run.output)
      && h.reply.message == "vm started"
      && h.reply.running == (!env.inspect.Failed() && GoStrings.TrimSpace(env.inspect.text) == "true")
    // a running container is kept and reported without logs
    ensures h.reply.StartBody? && h.reply.running ==>
      && ContainerName(id) in h.containers
      && h.reply.logs == ""
      && h.commands == [Run(ContainerName(id)), InspectRunning(ContainerName(id))]
    // a container that is not running has its logs captured, then is force-removed
    ensures h.reply.StartBody? && !h.reply.running ==>
      && h.reply.logs == env.logs
      && h.commands == [Run(ContainerName(id)), InspectRunning(ContainerName(id)),
                        Logs(ContainerName(id)), ForceRemove(ContainerName(id))]
      && (ContainerName(id) in h.containers <==> env.remove == Unavailable)
    // no other container is touched
    ensures forall n :: n != ContainerName(id) ==> (n in h.containers <==> n in before)
  {
    var name := ContainerName(id);
    var afterRun := AfterRun(before, name, env.run);
    match env.run
    case RunFailed(err, out, _) =>
      Handled(StatusInternalServerError, StartError("failed to start vm: " + err, out), [Run(name)], afterRun)
    case RunSucceeded(out) =>
      var containerId := GoStrings.TrimSpace(out);
      if IsRunning(env.inspect) then
        Handled(StatusOK, StartBody(id, containerId, true, "vm started", ""),
                [Run(name), InspectRunning(name)], afterRun)
      else
        Handled(StatusOK, StartBody(id, containerId, false, "vm started", env.logs),
                [Run(name), InspectRunning(name), Logs(name), ForceRemove(name)],
                AfterForceRemove(afterRun, name, env.remove))
  }

  /**
   * No non-running container is left behind: after a start that answered 200,
   * the VM's container exists only if it was reported running (given the
   * runtime carried out the cleanup).
   */
  lemma StartLeavesOnlyRunning(id: string, env: StartEnv, before: Containers)
    requires env.remove == Applied
    ensures var h := Start(id, env, before);
      h.status == StatusOK ==> (ContainerName(id) in h.containers <==> h.reply.running)
  {
  }

  /**
   * A cleanup that did not take effect leaves the container behind: the
   * handler still answers 200, reports it not running, and `vm-<id>` stays.
   */
  lemma CleanupUnavailableOrphan(id: string, env: StartEnv, before: Containers)
    requires env.run.RunSucceeded? && env.inspect.Failed() && env.remove == Unavailable
    ensures var h := Start(id, env, before);
      && h.status == StatusOK
      && h.reply.StartBody? && !h.reply.running
      && ContainerName(id) in h.containers
  {
  }

  /**
   * A run that fails after creating the container leaves it behind: the
   * handler answers 500, issues no remove, and `vm-<id>` stays, not running.
   */
  lemma FailedRunOrphan(id: string, env: StartEnv, before: Containers)
    requires env.run.RunFailed? && env.run.leftCreated
    ensures var h := Start(id, env, before);
      && h.status == StatusInternalServerError
      && ForceRemove(ContainerName(id)) !in h.commands
      && ContainerName(id) in h.containers
  {
  }

  // ----- stop ----------------------------------------------------------------

  /** What the runtime reports for `docker stop` and `docker rm -f`; the handler ignores both. */
  datatype StopEnv = StopEnv(stop: Effect, remove: Effect)

  datatype MessageReply = ErrorMessage(error: string) | Message(message: string)

  /** Stop VM `id`: stop and force-remove its container, whatever the runtime says. */
  function Stop(id: string, env: StopEnv, before: Containers): (h: Handled<MessageReply>)
    ensures id == "" ==>
      h == Handled(StatusBadRequest, ErrorMessage("missing vm id"), [], before)
    ensures id != "" ==>
      && h.status == StatusOK
      && h.reply == Message("vm stopped")
      && h.commands == [Docker.Stop(ContainerName(id)), ForceRemove(ContainerName(id))]
      && (ContainerName(id) in h.containers <==> ContainerName(id) in before && env.remove == Unavailable)
    ensures forall n :: n != ContainerName(id) ==> (n in h.containers <==> n in before)
  {
    if id == "" then
      Handled(StatusBadRequest, ErrorMessage("missing vm id"), [], before)
    else
      var name := ContainerName(id);
      Handled(StatusOK, Message("vm stopped"), [Docker.Stop(name), ForceRemove(name)],
              AfterForceRemove(before, name, env.remove))
  }

  /** Stopping twice is stopping once: same reply, same containers afterwards. */
  lemma StopIdempotent(id: string, first: StopEnv, second: StopEnv, before: Containers)
    requires first.remove == Applied
    ensures var once := Stop(id, first, before);
      var twice := Stop(id, second, once.containers);
      twice.status == once.status && twice.reply == once.reply && twice.containers == once.containers
  {
  }

  /** The reply to a stop depends on the id alone, never on what the runtime reported. */
  lemma StopIgnoresRuntime(id: string, e1: StopEnv, e2: StopEnv, c1: Containers, c2: Containers)
    ensures Stop(id, e1, c1).status == Stop(id, e2, c2).status
    ensures Stop(id, e1, c1).reply == Stop(id, e2, c2).reply
    ensures Stop(id, e1, c1).commands == Stop(id, e2, c2).commands
  {
  }

  // ----- stream --------------------------------------------------------------

  /**
   * What the runtime and the two connections do during a stream request:
   * the address inspect, the network during the readiness wait, the clock when
   * the wait starts, whether the WebSocket upgrade succeeds, what each relay
   * direction reads, and the teardown's effect.
   */
  datatype StreamEnv = StreamEnv(
    address: Output,
    network: Readiness.Network,
    clock: int,
    upgraded: bool,
    fromBrowser: seq<Relay.WsRead>,
    fromVnc: seq<Relay.TcpRead>,
    remove: Effect)

  datatype StreamReply =
    | Refused(status: int, error: string, output: Option<string>)
    | UpgradeFailed
    | Relayed(upstream: Relay.Upstream, downstream: Relay.Downstream)
  {
    /** The relay is over once either direction has returned. */
    predicate Ended() {
      Relayed? && (upstream.ended || downstream.ended)
    }
  }

  datatype StreamOutcome = StreamOutcome(reply: StreamReply, commands: seq<Command>, containers: Containers)

  /** The relay may start: the address resolved to an IP, VNC accepted a connection, the upgrade succeeded. */
  predicate CanRelay(env: StreamEnv) {
    var ip := GoStrings.TrimSpace(env.address.text);
    && !env.address.Failed()
    && ip != ""
    && Readiness.WaitForVnc(env.network, ip, env.clock).Ready?
    && env.upgraded
  }

  /** The early exits of a stream request with an id, in the order the handler checks them. */
  function EarlyExit(env: StreamEnv): (r: Option<StreamReply>)
    ensures r.None? <==> CanRelay(env)
    ensures r.Some? ==> (r.value.Refused? && r.value.status == StatusBadGateway) || r.value.UpgradeFailed?
    // a failed lookup reports the error and the inspect output
    ensures env.address.Failed() ==>
      r == Some(Refused(StatusBadGateway, "failed to resolve vm IP: " + env.address.err.value, Some(env.address.text)))
    // a lookup that printed only white space
    ensures !env.address.Failed() && GoStrings.TrimSpace(env.address.text) == "" ==>
      r == Some(Refused(StatusBadGateway, "vm IP not available", None))
    // VNC never accepted: the last dial error is reported
    ensures var ip := GoStrings.TrimSpace(env.address.text);
      var w := Readiness.WaitForVnc(env.network, ip, env.clock);
      !env.address.Failed() && ip != "" && w.NotReady? ==>
        r == Some(Refused(StatusBadGateway, "VNC not ready: " + w.err, None))
    // the upgrade fails only after VNC was reached, and then the upgrader answers
    ensures var ip := GoStrings.TrimSpace(env.address.text);
      r.Some? && r.value.UpgradeFailed? <==>
        !env.address.Failed() && ip != "" && Readiness.WaitForVnc(env.network, ip, env.clock).Ready? && !env.upgraded
  {
    if env.address.Failed() then
      Some(Refused(StatusBadGateway, "failed to resolve vm IP: " + env.address.err.value, Some(env.address.text)))
    else
      var ip := GoStrings.TrimSpace(env.address.text);
      if ip == "" then Some(Refused(StatusBadGateway, "vm IP not available", None))
      else
        match Readiness.WaitForVnc(env.network, ip, env.clock)
        case NotReady(err, _, _) => Some(Refused(StatusBadGateway, "VNC not ready: " + err, None))
        case Ready(_, _, _) => if env.upgraded then None else Some(UpgradeFailed)
  }

  /**
   * Stream VM `id`: resolve its container's IP once, wait for VNC, upgrade to
   * a WebSocket, relay both directions, and force-remove the container once
   * the first direction has returned.
   */
  function Stream(id: string, env: StreamEnv, before: Containers): (s: StreamOutcome)
    ensures id == "" ==> s == StreamOutcome(Refused(StatusBadRequest, "missing vm id", None), [], before)
    // one address lookup, then a forced remove only once the relay has ended
    ensures id != "" ==>
      s.commands == [InspectAddress(ContainerName(id))]
                    + (if s.reply.Ended() then [ForceRemove(ContainerName(id))] else [])
    ensures !s.reply.Ended() ==> s.containers == before
    ensures s.reply.Ended() ==> s.containers == AfterForceRemove(before, ContainerName(id), env.remove)
    // every refusal after the id check is a gateway error
    ensures s.reply.Refused? && id != "" ==> s.reply.status == StatusBadGateway
    // the relay runs only once every check passed, and carries what the two copy loops produce
    ensures s.reply.Relayed? <==> id != "" && CanRelay(env)
    ensures s.reply.Relayed? ==> s.reply == Relayed(Relay.WsToTcp(env.fromBrowser), Relay.TcpToWs(env.fromVnc))
    // otherwise the reply is the first early exit the handler hits
    ensures id != "" && !CanRelay(env) ==> Some(s.reply) == EarlyExit(env)
  {
    if id == "" then
      StreamOutcome(Refused(StatusBadRequest, "missing vm id", None), [], before)
    else
      var name := ContainerName(id);
      var resolve := [InspectAddress(name)];
      match EarlyExit(env)
      case Some(reply) => StreamOutcome(reply, resolve, before)
      case None =>
        var reply := Relayed(Relay.WsToTcp(env.fromBrowser), Relay.TcpToWs(env.fromVnc));
        if reply.Ended() then
          StreamOutcome(reply, resolve + [ForceRemove(name)], AfterForceRemove(before, name, env.remove))
        else
          StreamOutcome(reply, resolve, before)
  }

  /**
   * Exactly-once teardown: a stream request resolves the address at most once
   * and force-removes the container once if the relay ended (even when both
   * directions failed) and never otherwise.
   */
  lemma StreamTeardownOnce(id: string, env: StreamEnv, before: Containers)
    requires id != ""
    ensures var s := Stream(id, env, before);
      && Count(s.commands, InspectAddress(ContainerName(id))) == 1
      && Count(s.commands, ForceRemove(ContainerName(id))) == (if s.reply.Ended() then 1 else 0)
      && (s.reply.Ended() && env.remove == Applied ==> ContainerName(id) !in s.containers)
  {
    var s := Stream(id, env, before);
    var name := ContainerName(id);
    var tail := if s.reply.Ended() then [ForceRemove(name)] else [];
    CountAppend([InspectAddress(name)], tail, InspectAddress(name));
    CountAppend([InspectAddress(name)], tail, ForceRemove(name));
    CountSingle(InspectAddress(name), InspectAddress(name));
    CountSingle(InspectAddress(name), ForceRemove(name));
    if s.reply.Ended() {
      CountSingle(ForceRemove(name), InspectAddress(name));
      CountSingle(ForceRemove(name), ForceRemove(name));
    }
  }

  /**
   * A readiness timeout leaves the container for the caller to stop: the
   * stream can be retried, and nothing is removed.
   */
  lemma NotReadyKeepsContainer(id: string, env: StreamEnv, before: Containers)
    requires id != "" && !env.address.Failed()
    requires GoStrings.TrimSpace(env.address.text) != ""
    requires Readiness.WaitForVnc(env.network, GoStrings.TrimSpace(env.address.text), env.clock).NotReady?
    ensures var s := Stream(id, env, before);
      s.reply.Refused? && s.reply.status == StatusBadGateway && s.containers == before
      && s.commands == [InspectAddress(ContainerName(id))]
  {
  }
}

=== FILE: wrappers.dfy ===
/** Optional values: absent JSON fields, absent props, absent error values. */
module Wrappers {

  datatype Option<+T> = None | Some(value: T)
}
